=== FILE: README.md ===
# dht-client session lifecycle, modelled in Dafny

This project models the session-lifecycle controller of `dht-client`, a small
command-line driver that joins a Kademlia DHT, periodically looks up and
announces an infohash, and prints an estimate of the network size. The model
covers four pieces of `dht-client.cpp`:

- **Network-size estimator** (`estimate_node_count`), module `Estimator`
  (`estimator.dfy`): a piecewise-linear ramp over whole elapsed seconds plus a
  capped query bonus, clamped to 150.
- **Control loop** (`main_loop`), module `ControlLoop` (`control_loop.dfy`): a
  pure `Tick` on an immutable loop cursor that decides, in the source's fixed
  order, whether to print a status line, whether to dispatch a query round and
  whether to stop, and emits the corresponding events; `MainLoop` runs ticks
  against a finite schedule of observations (running flag, clock reading,
  outcome of the session's `run()`) and returns exactly what the recursive
  reference fold `Run` of `Tick` over that schedule gives.
- **Bootstrap failover** (`initialize_session_from_bootstrap_nodes`), module
  `Bootstrap` (`bootstrap.dfy`): an ordered first-success search over entry
  nodes, each paired with the abstract outcome of constructing a session
  against it, producing the chosen node index and the log.
- **Start-up** (`main`), module `Startup` (`startup.dfy`): the left-to-right
  option scan, the infohash length check and the process exit code.

`wrappers.dfy` holds the shared `Option` type.

Modelling choices:

- Clock readings are natural numbers in steady-clock ticks (nanoseconds);
  every interval is turned into whole seconds by truncating division, as the
  casts to `std::chrono::seconds` at dht-client.cpp:162-164 do. `Tick`
  requires only that the clock has not run backwards since the readings the
  cursor holds, which the steady clock guarantees.
- The configured intervals and stop limits are `int`, since they come from
  integer conversion of the command line and may be zero or negative; the
  stop limits are disabled unless `> 0`, as in the source.
- The session's `run()` is an abstract `RunResult` per tick; the query
  dispatch of `perform_dht_queries` is the single `Queried` event.
- Command-line arguments are byte sequences (`Startup.Arg`), as `argv`
  delivers them, so the infohash check compares a byte count, as
  `std::string::size()` does; option names and defaults are written as their
  ASCII codes.
- Bootstrap attempt outcomes are inputs (`Attempt`), either per candidate or as
  a function from endpoint to outcome.
- The infohash check in `main` tests the length only (dht-client.cpp:328),
  although its own error message (dht-client.cpp:329) asks for 40
  hexadecimal characters. The model follows
  the code: `InfohashLengthOnly` shows that any 40-byte argument is
  accepted. Likewise the code applies no range check to numeric options.

## Model

| member | source | states |
|---|---|---|
| Estimator.BaseCount | dht-client.cpp:212-221 | the time ramp is 0 exactly below 2 s, lies in 4..14 from 2 s to 5 s, in 15..57 from 5 s to 20 s, and is at least 60 from 20 s on |
| Estimator.Estimate | dht-client.cpp:211-225 | the estimate never exceeds 150 nor ramp plus bonus, is at least the query bonus, and is either 150 or ramp plus bonus |
| Estimator.QueryBonus | dht-client.cpp:223 | the query bonus is at most 40, at most twice the query count, and exactly twice the count up to 20 queries |
| Estimator.QueryBonusSaturates | dht-client.cpp:223 | the query bonus reaches its cap of 40 exactly from 20 queries on |
| Estimator.RampMatchesBase | dht-client.cpp:212-221 | the closed-form ramp equals the running sum of its per-second increments (jump of 4 at 2 s, slopes 5, 3, 2, steps of 1 at 5 s and 3 at 20 s) |
| Estimator.BaseMonotone | dht-client.cpp:212-221 | the time ramp never decreases as elapsed seconds grow |
| Estimator.EstimateMonotoneInElapsed | dht-client.cpp:211-225 | at a fixed query count the estimate is non-decreasing in elapsed seconds |
| Estimator.EstimateMonotoneInQueries | dht-client.cpp:223-224 | at fixed elapsed seconds the estimate is non-decreasing in the query count |
| Estimator.EstimateMonotone | dht-client.cpp:211-225 | the estimate is non-decreasing in both arguments together |
| Estimator.Breakpoints | dht-client.cpp:213-224 | with no queries the estimate is 0 below 2 s, 4 at 2 s, 14/15 at 4/5 s and 57/60 at 19/20 s |
| Estimator.EstimateSaturates | dht-client.cpp:219-224 | from 65 s on the estimate is 150 whatever the query count, and with no queries it is 150 only from 65 s on |
| Estimator.SixtyReachedAtTwenty | dht-client.cpp:217-220 | with no queries the estimate is at least 60 exactly when at least 20 s have elapsed |
| ControlLoop.Init | dht-client.cpp:154-158 | the loop starts with the start time, last print time and last query time all equal to the start reading, last printed count 0, query count 0 and a consistent cursor |
| ControlLoop.TickSpec | dht-client.cpp:161-204 | a print happens iff the count changed or the print interval has passed, records the count and time, and otherwise leaves both; a query round happens iff the query interval has passed, adds exactly one to the query count and records the time; the loop stops iff an enabled node or time limit is reached; printed and final counts use the pre-increment query count; events follow the step order |
| ControlLoop.EmitInStepOrder | dht-client.cpp:166-204 | a tick's events come in the fixed order session error, status line, query round, stop, each at most once |
| ControlLoop.SessionErrorOnlyLogged | dht-client.cpp:167-172 | a `run()` error other than an abort only adds a log event: cursor, print, query and stop decisions are those of a successful `run()` |
| ControlLoop.TickPreservesConsistent | dht-client.cpp:175-196 | every tick keeps the last printed count within the estimate for the time of that print at the current query count |
| ControlLoop.CountNeverFalls | dht-client.cpp:175-183 | in a reachable state the estimate never drops below the last printed count, so a count-triggered print always reports a rise |
| ControlLoop.StopAtSixtyNodes | dht-client.cpp:199-204 | with a 60-node limit, no time limit and no query yet, a tick stops exactly once 20 s have elapsed |
| ControlLoop.TickKeepsTraceInvariant | dht-client.cpp:160-208 | appending one tick's events keeps the trace invariant: consistent cursor, query count equal to the query rounds in the trace, non-decreasing printed counts bounded by the last printed count |
| ControlLoop.TakeTick | dht-client.cpp:160-208 | one pass of `MainLoop`'s loop body returns exactly the tick's cursor, the trace extended by the tick's events and the tick's stop decision; it keeps the loop invariant and breaks iff the trace now ends in a stop event, with no stop event earlier |
| ControlLoop.Run | dht-client.cpp:159-208 | the reference run ticks at most once per remaining observation, and a run of no ticks emits nothing and leaves the cursor alone |
| ControlLoop.RunKeepsTraceInvariant | dht-client.cpp:159-208 | a whole run keeps the start time and the trace invariant |
| ControlLoop.RunStops | dht-client.cpp:199-207 | a run's trace holds a stop event iff the run ended by the stop condition, the stop event is then the last one, and with both limits disabled a run never stops by itself |
| ControlLoop.RunShape | dht-client.cpp:159-207 | a run ticks only on running observations, ends by cancellation only at an observation with the flag down, by the horizon only at the end of the schedule, by the stop condition only after a tick, and with a time limit every tick before the last is under it |
| ControlLoop.RunFromStartKeeps | dht-client.cpp:153-209 | the run from the initial cursor keeps the start time, a consistent cursor, the query count equal to the trace's query rounds and non-decreasing printed counts |
| ControlLoop.RunFromStartExit | dht-client.cpp:153-209 | the run from the initial cursor exits by cancellation, the horizon or the stop condition exactly in the situations the loop checks, ticks only on running observations and has no stop event before the last |
| ControlLoop.RunFromStart | dht-client.cpp:153-209 | the run from the initial cursor has the loop's whole outcome (`LoopOutcome`) |
| ControlLoop.MainLoop | dht-client.cpp:153-209 | the loop returns exactly the reference run's trace, cursor, tick count and exit; so it checks the running flag before every tick and exits without events when it is false at once; it never ticks after a stop; the query count equals the number of query rounds in the trace; printed counts never decrease; with both limits disabled it never stops by itself; with a time limit every tick before the stopping one is under it |
| Bootstrap.TryFrom | dht-client.cpp:118-146 | the chosen node is the first one from the current position whose construction succeeds; every node before it failed; the log ends in the success line or in the all-failed line |
| Bootstrap.TryFromFailures | dht-client.cpp:140-145 | one failure line is logged per node before the chosen one, or per node when all fail |
| Bootstrap.TryFromFailureLines | dht-client.cpp:118-146 | the failure lines name, in order, every node before the one the run ends on, each with its position and its error text, and a success line appears exactly once when a node succeeds and never otherwise |
| Bootstrap.TryFromTried | dht-client.cpp:118-139 | the nodes tried are exactly those up to and including the chosen one, in list order; later nodes are never tried |
| Bootstrap.Initialize | dht-client.cpp:111-150 | a session is stored iff some node succeeds, and then it is the first such node; the failure lines are, in order, one per node before the chosen one (every node when all fail), each naming that node's position, endpoint and error text; exactly one success line is logged when a session is stored and none otherwise; the tried nodes are the list prefix through the chosen node; the log opens with the attempt line and ends with success or "all bootstrap attempts failed" |
| Bootstrap.DefaultCandidates | dht-client.cpp:53-59 | the client bootstraps from the five default routers, in their listed order |
| Bootstrap.SecondNodeWins | dht-client.cpp:118-139 | when the first router throws and the second accepts, exactly one failure is logged, naming the first router and its error, exactly one success is logged, the session is the second router's and only the first two routers are tried |
| Startup.SetOption | dht-client.cpp:304-317 | a valued option sets its own setting to the value and leaves every other setting and the debug switch unchanged |
| Startup.ParseFrom | dht-client.cpp:298-325 | help is reported only if `--help` occurs; an unknown option is an argument of the line that is neither `--help` nor `--debug`, and a valued option is unknown only as the last argument; debug and infohash change only when their options occur |
| Startup.RenderParseRoundTrip | dht-client.cpp:298-325 | scanning a command line that sets every option yields exactly those settings |
| Startup.HelpReached | dht-client.cpp:298-303 | a `--help` reached by the scan after a cleanly scanned prefix yields help (exit 0), whatever follows it |
| Startup.UnknownReached | dht-client.cpp:298-324 | an argument that is neither `--help`, `--debug` nor a valued option, reached after a cleanly scanned prefix, yields an unknown-option error for it (exit 1), whatever follows it |
| Startup.TrailingValuedOptionIsUnknown | dht-client.cpp:304-324 | a valued option with no value after a cleanly scanned line makes the line an unknown-option error |
| Startup.CheckStartup | dht-client.cpp:287-331 | start-up exits 0 iff help was asked, exits 1 iff an option is unknown or the infohash is not 40 bytes long, and otherwise goes on with a 40-byte infohash; with no arguments it goes on with the defaults |
| Startup.InfohashLengthOnly | dht-client.cpp:327-331 | any 40-byte infohash passes the check, hexadecimal or not; any other length exits 1 |
| Startup.ProcessExit | dht-client.cpp:333-352 | the process exits 0 iff help was asked or start-up passes and some default router accepts the session; otherwise 1 |

## Left out

- Log formatting and timestamps (`log_info`, `log_debug`, `log_error`, `get_timestamp`): log lines are abstract events and log entries.
- The kademlia library: session construction, `run()`, `async_load`, `async_save` and `abort` are foreign code; construction and `run()` are abstract outcomes, and the lookup and announce with their callbacks (which only log) are the single `Queried` event.
- Threads: the `std::async` launch of the loop, the atomic running flag and `stop()` waiting on the loop; the running flag is an input observed at each loop head. In `main` the client is destroyed right after `start()` returns, so `stop()` runs at once; this lifecycle quirk is not encoded.
- Sleeps: the 1 s back-off between bootstrap attempts and the 100 ms yield per tick; real time enters only through the clock readings of the schedule.
- The SIGINT handler, which calls `std::exit(0)`.
- Integer conversion of option values with `std::stoi` (its exceptions and the 16-bit port cast): numeric options keep their bytes, so `Startup` and the loop's `Config` are not connected.
- The unused bootstrap timeout field.
- Integer overflow: elapsed seconds, counts and intervals are unbounded integers, so the 32-bit `int` conversion of huge elapsed times is not modelled.
- MainLoop: runs against a finite schedule of observations, so a loop that never stops is represented by reaching the end of the schedule (`HorizonReached`).

=== FILE: bootstrap.dfy ===
/**
 * Bootstrap failover: the client tries its known entry nodes one by one, in
 * list order, constructing a session against each; the first construction
 * that does not throw wins and later nodes are never tried. Whether a
 * construction succeeds is decided by the network, so each node comes paired
 * with the abstract outcome of its attempt.
 */
module Bootstrap {
  import opened Wrappers

  datatype Endpoint = Endpoint(host: string, port: nat)

  /** What constructing a session against one node did. */
  datatype Attempt = Constructed | Threw(what: string)

  /** A node together with the outcome an attempt on it would have. */
  datatype Candidate = Candidate(node: Endpoint, attempt: Attempt)

  /** The log lines of a bootstrap run; indices are positions in the node list. */
  datatype LogEntry =
    | Attempting
    | Trying(index: nat, node: Endpoint)
    | Bootstrapped(index: nat, node: Endpoint)
    | AttemptFailed(index: nat, node: Endpoint, what: string)
    | AllFailed

  /** The session slot after the run (the index of the node it was built against) and the log. */
  datatype Outcome = Outcome(session: Option<nat>, log: seq<LogEntry>)

  /** The entry nodes the client is started with, in priority order. */
  const DefaultNodes: seq<Endpoint> := [
    Endpoint("router.bittorrent.com", 6881),
    Endpoint("router.utorrent.com", 6881),
    Endpoint("dht.transmissionbt.com", 6881),
    Endpoint("dht.aelitis.com", 6881),
    Endpoint("dht.libtorrent.org", 25401)
  ]

  predicate Succeeds(c: Candidate) {
    c.attempt.Constructed?
  }

  /** The nodes of a candidate list, in order. */
  function Nodes(cands: seq<Candidate>): seq<Endpoint> {
    if cands == [] then [] else [cands[0].node] + Nodes(cands[1..])
  }

  /** The nodes a log says were tried, in log order. */
  function TriedNodes(log: seq<LogEntry>): seq<Endpoint> {
    if log == [] then []
    else (if log[0].Trying? then [log[0].node] else []) + TriedNodes(log[1..])
  }

  /** Number of failed attempts a log records. */
  function FailureCount(log: seq<LogEntry>): nat {
    if log == [] then 0
    else (if log[0].AttemptFailed? then 1 else 0) + FailureCount(log[1..])
  }

  /** What a failure line names: the node's position, the node and the error text. */
  datatype Failure = Failure(index: nat, node: Endpoint, what: string)

  /** The failure lines of a log, in log order. */
  function Failures(log: seq<LogEntry>): seq<Failure> {
    if log == [] then []
    else (if log[0].AttemptFailed? then [Failure(log[0].index, log[0].node, log[0].what)] else []) + Failures(log[1..])
  }

  /** Number of success lines a log records. */
  function SuccessCount(log: seq<LogEntry>): nat {
    if log == [] then 0
    else (if log[0].Bootstrapped? then 1 else 0) + SuccessCount(log[1..])
  }

  /** The error text of an attempt that threw (empty for one that did not). */
  function ErrorText(a: Attempt): string {
    if a.Threw? then a.what else ""
  }

  /** The failure lines expected for the nodes at positions `i` up to `k`, in list order. */
  function ExpectedFailures(cands: seq<Candidate>, i: nat, k: nat): seq<Failure>
    requires i <= k <= |cands|
    decreases k - i
  {
    if i == k then []
    else [Failure(i, cands[i].node, ErrorText(cands[i].attempt))] + ExpectedFailures(cands, i + 1, k)
  }

  lemma LogCons(e: LogEntry, rest: seq<LogEntry>)
    ensures TriedNodes([e] + rest) == (if e.Trying? then [e.node] else []) + TriedNodes(rest)
    ensures FailureCount([e] + rest) == (if e.AttemptFailed? then 1 else 0) + FailureCount(rest)
  {
    assert ([e] + rest)[1..] == rest;
  }

  lemma LogConsLines(e: LogEntry, rest: seq<LogEntry>)
    ensures Failures([e] + rest) == (if e.AttemptFailed? then [Failure(e.index, e.node, e.what)] else []) + Failures(rest)
    ensures SuccessCount([e] + rest) == (if e.Bootstrapped? then 1 else 0) + SuccessCount(rest)
  {
    assert ([e] + rest)[1..] == rest;
  }

  lemma {:induction false} NodesAt(cands: seq<Candidate>)
    ensures |Nodes(cands)| == |cands|
    ensures forall k :: 0 <= k < |cands| ==> Nodes(cands)[k] == cands[k].node
  {
    if cands != [] {
      NodesAt(cands[1..]);
    }
  }

  lemma NodesSlice(cands: seq<Candidate>, i: nat, k: nat)
    requires i < k <= |cands|
    ensures Nodes(cands[i..k]) == [cands[i].node] + Nodes(cands[i + 1..k])
  {
    assert cands[i..k][1..] == cands[i + 1..k];
  }

  /** Index of the node a run ends on: the chosen one, or the list length when all failed. */
  function StopIndex(r: Outcome, n: nat): nat {
    if r.session.Some? then r.session.value else n
  }

  /** One past the last node a run tries: just past the chosen one, or the list length. */
  function LastTried(r: Outcome, n: nat): nat {
    if r.session.Some? then r.session.value + 1 else n
  }

  /** The attempts from position `i` on. */
  function TryFrom(cands: seq<Candidate>, i: nat): (r: Outcome)
    requires i <= |cands|
    decreases |cands| - i
    ensures r.session.Some? ==> i <= r.session.value < |cands| && Succeeds(cands[r.session.value])
    ensures forall j :: i <= j < StopIndex(r, |cands|) ==> !Succeeds(cands[j])
    ensures r.log != []
    ensures r.session.Some? ==> r.log[|r.log| - 1] == Bootstrapped(r.session.value, cands[r.session.value].node)
    ensures r.session.None? ==> r.log[|r.log| - 1] == AllFailed
  {
    if i == |cands| then
      Outcome(None, [AllFailed])
    else
      var c := cands[i];
      match c.attempt
      case Constructed =>
        Outcome(Some(i), [Trying(i, c.node), Bootstrapped(i, c.node)])
      case Threw(what) =>
        var rest := TryFrom(cands, i + 1);
        Outcome(rest.session, [Trying(i, c.node), AttemptFailed(i, c.node, what)] + rest.log)
  }

  /** The attempts from position `i` on log one failure per node before the one they end on. */
  lemma {:induction false} TryFromFailures(cands: seq<Candidate>, i: nat)
    requires i <= |cands|
    decreases |cands| - i
    ensures FailureCount(TryFrom(cands, i).log) == StopIndex(TryFrom(cands, i), |cands|) - i
  {
    if i == |cands| {
      LogCons(AllFailed, []);
    } else {
      var c := cands[i];
      match c.attempt
      case Constructed =>
        LogCons(Bootstrapped(i, c.node), []);
        LogCons(Trying(i, c.node), [Bootstrapped(i, c.node)]);
        assert [Trying(i, c.node)] + [Bootstrapped(i, c.node)] == [Trying(i, c.node), Bootstrapped(i, c.node)];
      case Threw(what) =>
        var rest := TryFrom(cands, i + 1);
        TryFromFailures(cands, i + 1);
        var failed := [AttemptFailed(i, c.node, what)] + rest.log;
        LogCons(AttemptFailed(i, c.node, what), rest.log);
        LogCons(Trying(i, c.node), failed);
        assert [Trying(i, c.node)] + failed == [Trying(i, c.node), AttemptFailed(i, c.node, what)] + rest.log;
    }
  }

  /** A run that ends at a succeeding node logs no failure and one success. */
  lemma FailureLinesWhenConstructed(cands: seq<Candidate>, i: nat)
    requires i < |cands| && Succeeds(cands[i])
    ensures Failures(TryFrom(cands, i).log) == ExpectedFailures(cands, i, StopIndex(TryFrom(cands, i), |cands|))
    ensures SuccessCount(TryFrom(cands, i).log) == 1
  {
    var c := cands[i];
    LogConsLines(Bootstrapped(i, c.node), []);
    LogConsLines(Trying(i, c.node), [Bootstrapped(i, c.node)]);
    assert [Trying(i, c.node)] + [Bootstrapped(i, c.node)] == [Trying(i, c.node), Bootstrapped(i, c.node)];
  }

  /** A failed attempt puts its own failure line in front of those of the rest of the run. */
  lemma FailureLinesWhenThrew(cands: seq<Candidate>, i: nat)
    requires i < |cands| && !Succeeds(cands[i])
    requires Failures(TryFrom(cands, i + 1).log) == ExpectedFailures(cands, i + 1, StopIndex(TryFrom(cands, i + 1), |cands|))
    requires SuccessCount(TryFrom(cands, i + 1).log) == (if TryFrom(cands, i + 1).session.Some? then 1 else 0)
    ensures Failures(TryFrom(cands, i).log) == ExpectedFailures(cands, i, StopIndex(TryFrom(cands, i), |cands|))
    ensures SuccessCount(TryFrom(cands, i).log) == (if TryFrom(cands, i).session.Some? then 1 else 0)
  {
    var c := cands[i];
    var what := c.attempt.what;
    var rest := TryFrom(cands, i + 1);
    assert TryFrom(cands, i) == Outcome(rest.session, [Trying(i, c.node), AttemptFailed(i, c.node, what)] + rest.log);
    var failed := [AttemptFailed(i, c.node, what)] + rest.log;
    LogConsLines(AttemptFailed(i, c.node, what), rest.log);
    LogConsLines(Trying(i, c.node), failed);
    assert [Trying(i, c.node)] + failed == [Trying(i, c.node), AttemptFailed(i, c.node, what)] + rest.log;
    var k := StopIndex(rest, |cands|);
    assert StopIndex(TryFrom(cands, i), |cands|) == k && i < k <= |cands|;
    assert ExpectedFailures(cands, i, k) == [Failure(i, c.node, what)] + ExpectedFailures(cands, i + 1, k);
  }

  /**
   * The failure lines of the attempts from position `i` on name, in order,
   * each node before the one the run ends on, with that node's error text;
   * a success line appears exactly once when a node succeeds and never
   * otherwise.
   */
  lemma {:induction false} TryFromFailureLines(cands: seq<Candidate>, i: nat)
    requires i <= |cands|
    decreases |cands| - i
    ensures Failures(TryFrom(cands, i).log) == ExpectedFailures(cands, i, StopIndex(TryFrom(cands, i), |cands|))
    ensures SuccessCount(TryFrom(cands, i).log) == (if TryFrom(cands, i).session.Some? then 1 else 0)
  {
    if i == |cands| {
      LogConsLines(AllFailed, []);
    } else if Succeeds(cands[i]) {
      FailureLinesWhenConstructed(cands, i);
    } else {
      TryFromFailureLines(cands, i + 1);
      FailureLinesWhenThrew(cands, i);
    }
  }

  lemma TriedWhenConstructed(cands: seq<Candidate>, i: nat)
    requires i < |cands| && Succeeds(cands[i])
    ensures TriedNodes(TryFrom(cands, i).log) == Nodes(cands[i..LastTried(TryFrom(cands, i), |cands|)])
  {
    var c := cands[i];
    LogCons(Bootstrapped(i, c.node), []);
    LogCons(Trying(i, c.node), [Bootstrapped(i, c.node)]);
    assert [Trying(i, c.node)] + [Bootstrapped(i, c.node)] == [Trying(i, c.node), Bootstrapped(i, c.node)];
    NodesSlice(cands, i, i + 1);
  }

  /** One failed attempt in front of the rest of the log adds exactly its node to the tried nodes. */
  lemma TriedAfterFailure(i: nat, node: Endpoint, what: string, rest: seq<LogEntry>)
    ensures TriedNodes([Trying(i, node), AttemptFailed(i, node, what)] + rest) == [node] + TriedNodes(rest)
  {
    var fail := AttemptFailed(i, node, what);
    assert [Trying(i, node), fail] + rest == [Trying(i, node)] + ([fail] + rest);
    LogCons(fail, rest);
    LogCons(Trying(i, node), [fail] + rest);
  }

  lemma TriedWhenThrew(cands: seq<Candidate>, i: nat)
    requires i < |cands| && !Succeeds(cands[i])
    requires TriedNodes(TryFrom(cands, i + 1).log) == Nodes(cands[i + 1..LastTried(TryFrom(cands, i + 1), |cands|)])
    ensures TriedNodes(TryFrom(cands, i).log) == Nodes(cands[i..LastTried(TryFrom(cands, i), |cands|)])
  {
    var c := cands[i];
    var rest := TryFrom(cands, i + 1);
    assert TryFrom(cands, i) == Outcome(rest.session, [Trying(i, c.node), AttemptFailed(i, c.node, c.attempt.what)] + rest.log);
    TriedAfterFailure(i, c.node, c.attempt.what, rest.log);
    NodesSlice(cands, i, LastTried(rest, |cands|));
  }

  /**
   * The attempts from position `i` on try exactly the nodes from `i` through
   * the chosen one (all of them when none succeeds), in list order.
   */
  lemma {:induction false} TryFromTried(cands: seq<Candidate>, i: nat)
    requires i <= |cands|
    decreases |cands| - i
    ensures TriedNodes(TryFrom(cands, i).log) == Nodes(cands[i..LastTried(TryFrom(cands, i), |cands|)])
  {
    if i == |cands| {
      LogCons(AllFailed, []);
    } else if Succeeds(cands[i]) {
      TriedWhenConstructed(cands, i);
    } else {
      TryFromTried(cands, i + 1);
      TriedWhenThrew(cands, i);
    }
  }

  /**
   * The whole bootstrap run: one opening line, then the attempts. The session
   * is the first node whose construction succeeds, or none.
   */
  function Initialize(cands: seq<Candidate>): (r: Outcome)
    ensures r.session.Some? <==> exists k :: 0 <= k < |cands| && Succeeds(cands[k])
    ensures r.session.Some? ==>
      var k := r.session.value;
      k < |cands| && Succeeds(cands[k]) && forall j :: 0 <= j < k ==> !Succeeds(cands[j])
    ensures FailureCount(r.log) == StopIndex(r, |cands|)
    ensures Failures(r.log) == ExpectedFailures(cands, 0, StopIndex(r, |cands|))
    ensures SuccessCount(r.log) == (if r.session.Some? then 1 else 0)
    ensures TriedNodes(r.log) == Nodes(cands[..LastTried(r, |cands|)])
    ensures r.log != [] && r.log[0] == Attempting
    ensures r.session.None? ==> r.log[|r.log| - 1] == AllFailed
    ensures r.session.Some? ==> r.log[|r.log| - 1] == Bootstrapped(r.session.value, cands[r.session.value].node)
  {
    var rest := TryFrom(cands, 0);
    var log := [Attempting] + rest.log;
    TryFromFailures(cands, 0);
    TryFromTried(cands, 0);
    TryFromFailureLines(cands, 0);
    LogCons(Attempting, rest.log);
    assert log[1..] == rest.log;
    assert cands[0..] == cands;
    Outcome(rest.session, log)
  }

  /** The default node list, each paired with what constructing a session against it does. */
  function DefaultCandidates(connect: Endpoint -> Attempt): (cands: seq<Candidate>)
    ensures Nodes(cands) == DefaultNodes
    ensures |cands| == |DefaultNodes|
    ensures forall k :: 0 <= k < |cands| ==> cands[k] == Candidate(DefaultNodes[k], connect(DefaultNodes[k]))
  {
    var cands := seq(|DefaultNodes|, k requires 0 <= k < |DefaultNodes| => Candidate(DefaultNodes[k], connect(DefaultNodes[k])));
    NodesAt(cands);
    cands
  }

  /**
   * Example run: the first node throws and the second accepts. One failure is
   * logged, the session is built against the second node and the other three
   * nodes are never tried.
   */
  lemma SecondNodeWins(connect: Endpoint -> Attempt)
    requires connect(DefaultNodes[0]).Threw? && connect(DefaultNodes[1]) == Constructed
    ensures Initialize(DefaultCandidates(connect)).session == Some(1)
    ensures FailureCount(Initialize(DefaultCandidates(connect)).log) == 1
    ensures Failures(Initialize(DefaultCandidates(connect)).log) == [Failure(0, DefaultNodes[0], connect(DefaultNodes[0]).what)]
    ensures SuccessCount(Initialize(DefaultCandidates(connect)).log) == 1
    ensures TriedNodes(Initialize(DefaultCandidates(connect)).log) == DefaultNodes[..2]
  {
    var cands := DefaultCandidates(connect);
    var r := Initialize(cands);
    assert Succeeds(cands[1]) && !Succeeds(cands[0]);
    NodesSlice(cands, 0, 2);
    NodesSlice(cands, 1, 2);
    assert cands[2..2] == [];
    assert cands[0..2] == cands[..2];
    assert DefaultNodes[..2] == [DefaultNodes[0], DefaultNodes[1]];
  }
}

=== FILE: control_loop.dfy ===
/**
 * The control loop of the client: one tick services the session, estimates
 * the network size, and then decides, in this fixed order, whether to print
 * a status line, whether to dispatch a query round and whether to stop.
 *
 * Clock readings are natural numbers in steady-clock ticks; every interval is
 * converted to whole seconds by truncation, as a cast of a duration to
 * seconds does. The session's `run()` is an abstract outcome per tick, and
 * the query dispatch (one lookup and one announce) is the single `Queried`
 * event.
 */
module ControlLoop {
  import Estimator

  /** Resolution of the steady clock: nanoseconds. */
  const TicksPerSecond: nat := 1_000_000_000

  /** A clock interval truncated to whole seconds. */
  function Seconds(d: nat): nat {
    d / TicksPerSecond
  }

  lemma SecondsMonotone(a: nat, b: nat)
    requires a <= b
    ensures Seconds(a) <= Seconds(b)
  {
  }

  /** Intervals and stop limits, as given on the command line (0 disables a stop limit). */
  datatype Config = Config(sleepPrint: int, sleepQuery: int, stopNodes: int, stopTime: int)

  /** The loop-local state carried from one tick to the next. */
  datatype Cursor = Cursor(
    startTime: nat,
    lastPrintTime: nat,
    lastQueryTime: nat,
    lastNodeCount: nat,
    queryCount: nat)

  /** What one call of the session's `run()` reported. */
  datatype RunResult = RunOk | RunAborted | RunFailed(code: nat)

  /** What a tick emits, in emission order. */
  datatype Event =
    | SessionError(code: nat)
    | Printed(count: nat, elapsed: nat)
    | Queried
    | Stopped(count: nat)

  /** The outcome of one tick: the next cursor, the events, and whether the loop breaks. */
  datatype Step = Step(cursor: Cursor, events: seq<Event>, halt: bool)

  /** The cursor right after the loop starts at clock reading `start`. */
  function Init(start: nat): (c: Cursor)
    ensures c.startTime == start && c.lastPrintTime == start && c.lastQueryTime == start
    ensures c.lastNodeCount == 0 && c.queryCount == 0
    ensures Consistent(c)
  {
    Cursor(start, start, start, 0, 0)
  }

  /** The steady clock never runs backwards: `now` is no earlier than any reading the cursor holds. */
  predicate ClockOk(c: Cursor, now: nat) {
    c.startTime <= c.lastPrintTime <= now && c.startTime <= c.lastQueryTime <= now
  }

  /**
   * What every reachable cursor satisfies: its readings are no earlier than
   * the start, and the last printed count does not exceed the estimate for
   * the time of that print at the current query count.
   */
  predicate Consistent(c: Cursor) {
    && c.startTime <= c.lastPrintTime
    && c.startTime <= c.lastQueryTime
    && c.lastNodeCount <= Estimator.Estimate(Seconds(c.lastPrintTime - c.startTime), c.queryCount)
  }

  function Elapsed(c: Cursor, now: nat): nat
    requires ClockOk(c, now)
  {
    Seconds(now - c.startTime)
  }

  /** The estimate a tick at `now` uses: computed before that tick's query increment. */
  function NodeCount(c: Cursor, now: nat): nat
    requires ClockOk(c, now)
  {
    Estimator.Estimate(Elapsed(c, now), c.queryCount)
  }

  predicate PrintDue(cfg: Config, c: Cursor, now: nat)
    requires ClockOk(c, now)
  {
    NodeCount(c, now) != c.lastNodeCount || Seconds(now - c.lastPrintTime) >= cfg.sleepPrint
  }

  predicate QueryDue(cfg: Config, c: Cursor, now: nat)
    requires ClockOk(c, now)
  {
    Seconds(now - c.lastQueryTime) >= cfg.sleepQuery
  }

  /** Either enabled stop limit has been reached. */
  predicate StopDue(cfg: Config, count: nat, elapsed: nat) {
    (cfg.stopNodes > 0 && count >= cfg.stopNodes) || (cfg.stopTime > 0 && elapsed >= cfg.stopTime)
  }

  /** The log line a `run()` outcome produces: only errors other than an abort are logged. */
  function SessionLog(run: RunResult): seq<Event> {
    if run.RunFailed? then [SessionError(run.code)] else []
  }

  predicate HasPrint(events: seq<Event>) {
    exists e :: e in events && e.Printed?
  }

  predicate HasQuery(events: seq<Event>) {
    Queried in events
  }

  predicate HasStop(events: seq<Event>) {
    exists e :: e in events && e.Stopped?
  }

  /** Position of an event kind in the fixed order of a tick's steps. */
  function Rank(e: Event): nat {
    match e
    case SessionError(_) => 0
    case Printed(_, _) => 1
    case Queried => 2
    case Stopped(_) => 3
  }

  /** Events appear in step order, each kind at most once. */
  predicate InStepOrder(events: seq<Event>) {
    forall i, j :: 0 <= i < j < |events| ==> Rank(events[i]) < Rank(events[j])
  }

  /** Number of query rounds recorded in a trace. */
  function CountQueries(events: seq<Event>): nat {
    if events == [] then 0
    else (if events[0] == Queried then 1 else 0) + CountQueries(events[1..])
  }

  lemma {:induction false} CountQueriesAppend(a: seq<Event>, b: seq<Event>)
    ensures CountQueries(a + b) == CountQueries(a) + CountQueries(b)
  {
    if a == [] {
      assert a + b == b;
    } else {
      assert (a + b)[1..] == a[1..] + b;
      CountQueriesAppend(a[1..], b);
    }
  }

  /** Ranks of all events lie in `[lo, hi)`. */
  predicate RanksWithin(events: seq<Event>, lo: nat, hi: nat) {
    forall i :: 0 <= i < |events| ==> lo <= Rank(events[i]) < hi
  }

  lemma OrderAppend(a: seq<Event>, b: seq<Event>, lo: nat, mid: nat, hi: nat)
    requires InStepOrder(a) && InStepOrder(b)
    requires lo <= mid <= hi && RanksWithin(a, lo, mid) && RanksWithin(b, mid, hi)
    ensures InStepOrder(a + b) && RanksWithin(a + b, lo, hi)
  {
    forall i, j | 0 <= i < j < |a + b|
      ensures Rank((a + b)[i]) < Rank((a + b)[j])
    {
      if j < |a| {
      } else if i >= |a| {
        assert (a + b)[i] == b[i - |a|] && (a + b)[j] == b[j - |a|];
      } else {
        assert (a + b)[j] == b[j - |a|];
      }
    }
  }

  function Opt(b: bool, e: Event): (ev: seq<Event>)
    ensures e in ev <==> b
    ensures forall x :: x in ev ==> x == e
    ensures CountQueries(ev) == (if b && e == Queried then 1 else 0)
  {
    if b then [e] else []
  }

  lemma OptRanked(b: bool, e: Event)
    ensures InStepOrder(Opt(b, e)) && RanksWithin(Opt(b, e), Rank(e), Rank(e) + 1)
  {
  }

  lemma EmitOrdered(a: seq<Event>, b: seq<Event>, c: seq<Event>, d: seq<Event>)
    requires InStepOrder(a) && RanksWithin(a, 0, 1)
    requires InStepOrder(b) && RanksWithin(b, 1, 2)
    requires InStepOrder(c) && RanksWithin(c, 2, 3)
    requires InStepOrder(d) && RanksWithin(d, 3, 4)
    ensures InStepOrder(a + b + c + d)
  {
    OrderAppend(a, b, 0, 1, 2);
    OrderAppend(a + b, c, 0, 2, 3);
    OrderAppend(a + b + c, d, 0, 3, 4);
  }

  /**
   * The events of one tick, given its decisions: the session-error line
   * (`SessionLog`), then each of the status line, query round and stop line
   * when decided (`Opt`). The pieces are written out rather than called so
   * that unfolding a tick does not bring in the contracts of `SessionLog`
   * and `Opt`; `EmitPrint`, `EmitStop` and `EmitQueries` relate the two forms.
   */
  function Emit(run: RunResult, printing: bool, count: nat, elapsed: nat, query: bool, stop: bool): seq<Event> {
    (if run.RunFailed? then [SessionError(run.code)] else [])
      + (if printing then [Printed(count, elapsed)] else [])
      + (if query then [Queried] else [])
      + (if stop then [Stopped(count)] else [])
  }

  /** A tick emits a status line iff it prints, carrying the tick's count and elapsed seconds. */
  lemma EmitPrint(run: RunResult, printing: bool, count: nat, elapsed: nat, query: bool, stop: bool)
    ensures HasPrint(Emit(run, printing, count, elapsed, query, stop)) <==> printing
    ensures forall e :: e in Emit(run, printing, count, elapsed, query, stop) && e.Printed? ==> e == Printed(count, elapsed)
  {
    var front := SessionLog(run) + Opt(printing, Printed(count, elapsed));
    var parts := front + Opt(query, Queried) + Opt(stop, Stopped(count));
    assert Emit(run, printing, count, elapsed, query, stop) == parts;
    assert forall e :: e in parts <==> e in SessionLog(run) || e in Opt(printing, Printed(count, elapsed)) || e in Opt(query, Queried) || e in Opt(stop, Stopped(count));
    assert printing ==> Printed(count, elapsed) in front;
  }

  /** A tick emits a stop event iff it stops, carrying the tick's count. */
  lemma EmitStop(run: RunResult, printing: bool, count: nat, elapsed: nat, query: bool, stop: bool)
    ensures HasStop(Emit(run, printing, count, elapsed, query, stop)) <==> stop
    ensures forall e :: e in Emit(run, printing, count, elapsed, query, stop) && e.Stopped? ==> e.count == count
  {
    var front := SessionLog(run) + Opt(printing, Printed(count, elapsed)) + Opt(query, Queried);
    var parts := front + Opt(stop, Stopped(count));
    assert Emit(run, printing, count, elapsed, query, stop) == parts;
    assert forall e :: e in parts <==> e in SessionLog(run) || e in Opt(printing, Printed(count, elapsed)) || e in Opt(query, Queried) || e in Opt(stop, Stopped(count));
    assert stop ==> Stopped(count) in parts;
  }

  /** A tick emits one query event iff it dispatches a query round. */
  lemma EmitQueries(run: RunResult, printing: bool, count: nat, elapsed: nat, query: bool, stop: bool)
    ensures HasQuery(Emit(run, printing, count, elapsed, query, stop)) <==> query
    ensures CountQueries(Emit(run, printing, count, elapsed, query, stop)) == (if query then 1 else 0)
  {
    var a := SessionLog(run) + Opt(printing, Printed(count, elapsed));
    var b := a + Opt(query, Queried);
    assert Emit(run, printing, count, elapsed, query, stop) == b + Opt(stop, Stopped(count));
    CountQueriesAppend(SessionLog(run), Opt(printing, Printed(count, elapsed)));
    CountQueriesAppend(a, Opt(query, Queried));
    CountQueriesAppend(b, Opt(stop, Stopped(count)));
    assert query ==> Queried in b + Opt(stop, Stopped(count));
    assert Queried !in a;
  }

  /** A tick's events follow the fixed step order. */
  lemma EmitInStepOrder(run: RunResult, printing: bool, count: nat, elapsed: nat, query: bool, stop: bool)
    ensures InStepOrder(Emit(run, printing, count, elapsed, query, stop))
  {
    assert InStepOrder(SessionLog(run)) && RanksWithin(SessionLog(run), 0, 1);
    OptRanked(printing, Printed(count, elapsed));
    OptRanked(query, Queried);
    OptRanked(stop, Stopped(count));
    EmitOrdered(SessionLog(run), Opt(printing, Printed(count, elapsed)), Opt(query, Queried), Opt(stop, Stopped(count)));
    assert Emit(run, printing, count, elapsed, query, stop)
      == SessionLog(run) + Opt(printing, Printed(count, elapsed)) + Opt(query, Queried) + Opt(stop, Stopped(count));
  }

  /** One iteration of the loop body, with `running` already observed true. */
  function Tick(cfg: Config, c: Cursor, now: nat, run: RunResult): Step
    requires ClockOk(c, now)
  {
    var elapsed := Elapsed(c, now);
    var n := NodeCount(c, now);
    var printing := PrintDue(cfg, c, now);
    var query := QueryDue(cfg, c, now);
    var stop := StopDue(cfg, n, elapsed);
    var afterPrint := if printing then c.(lastNodeCount := n, lastPrintTime := now) else c;
    var afterQuery := if query then afterPrint.(lastQueryTime := now, queryCount := c.queryCount + 1) else afterPrint;
    Step(afterQuery, Emit(run, printing, n, elapsed, query, stop), stop)
  }

  /**
   * What a tick decides and what it emits: a status line iff a print is due,
   * a query event iff a query round is due, and a stop event, last, iff the
   * stop condition holds on the count from before this tick's query.
   */
  lemma TickSpec(cfg: Config, c: Cursor, now: nat, run: RunResult)
    requires ClockOk(c, now)
    ensures Tick(cfg, c, now, run).cursor.startTime == c.startTime
    ensures ClockOk(Tick(cfg, c, now, run).cursor, now)
    // print decision and its effect on the cursor
    ensures HasPrint(Tick(cfg, c, now, run).events) <==> PrintDue(cfg, c, now)
    ensures forall e :: e in Tick(cfg, c, now, run).events && e.Printed? ==> e == Printed(NodeCount(c, now), Elapsed(c, now))
    ensures PrintDue(cfg, c, now) ==> Tick(cfg, c, now, run).cursor.lastNodeCount == NodeCount(c, now) && Tick(cfg, c, now, run).cursor.lastPrintTime == now
    ensures !PrintDue(cfg, c, now) ==> Tick(cfg, c, now, run).cursor.lastNodeCount == c.lastNodeCount && Tick(cfg, c, now, run).cursor.lastPrintTime == c.lastPrintTime
    // query decision and its effect on the cursor
    ensures HasQuery(Tick(cfg, c, now, run).events) <==> QueryDue(cfg, c, now)
    ensures Tick(cfg, c, now, run).cursor.queryCount == c.queryCount + CountQueries(Tick(cfg, c, now, run).events)
    ensures QueryDue(cfg, c, now) ==> Tick(cfg, c, now, run).cursor.queryCount == c.queryCount + 1 && Tick(cfg, c, now, run).cursor.lastQueryTime == now
    ensures !QueryDue(cfg, c, now) ==> Tick(cfg, c, now, run).cursor.queryCount == c.queryCount && Tick(cfg, c, now, run).cursor.lastQueryTime == c.lastQueryTime
    // stop decision, on the pre-increment count
    ensures Tick(cfg, c, now, run).halt <==> HasStop(Tick(cfg, c, now, run).events)
    ensures Tick(cfg, c, now, run).halt <==> StopDue(cfg, NodeCount(c, now), Elapsed(c, now))
    ensures forall e :: e in Tick(cfg, c, now, run).events && e.Stopped? ==> e.count == NodeCount(c, now)
    ensures InStepOrder(Tick(cfg, c, now, run).events)
  {
    var n := NodeCount(c, now);
    var elapsed := Elapsed(c, now);
    var printing := PrintDue(cfg, c, now);
    var query := QueryDue(cfg, c, now);
    var stop := StopDue(cfg, n, elapsed);
    EmitInStepOrder(run, printing, n, elapsed, query, stop);
    EmitPrint(run, printing, n, elapsed, query, stop);
    EmitStop(run, printing, n, elapsed, query, stop);
    EmitQueries(run, printing, n, elapsed, query, stop);
  }

  /** The events of a tick are its session-error line followed by what a successful `run()` would emit. */
  lemma EmitSessionSplit(run: RunResult, printing: bool, count: nat, elapsed: nat, query: bool, stop: bool)
    ensures Emit(run, printing, count, elapsed, query, stop) == SessionLog(run) + Emit(RunOk, printing, count, elapsed, query, stop)
  {
    var p := Opt(printing, Printed(count, elapsed));
    var q := Opt(query, Queried);
    var t := Opt(stop, Stopped(count));
    assert Emit(RunOk, printing, count, elapsed, query, stop) == p + q + t;
    assert Emit(run, printing, count, elapsed, query, stop) == SessionLog(run) + p + q + t;
    AppendAssoc(SessionLog(run), p + q, t);
    AppendAssoc(SessionLog(run), p, q);
  }

  /**
   * The outcome of `run()` is only logged: the cursor, the print, query and
   * stop decisions are those of a tick whose `run()` succeeded.
   */
  lemma SessionErrorOnlyLogged(cfg: Config, c: Cursor, now: nat, run: RunResult)
    requires ClockOk(c, now)
    ensures Tick(cfg, c, now, run).cursor == Tick(cfg, c, now, RunOk).cursor
    ensures Tick(cfg, c, now, run).halt == Tick(cfg, c, now, RunOk).halt
    ensures Tick(cfg, c, now, run).events == SessionLog(run) + Tick(cfg, c, now, RunOk).events
  {
    EmitSessionSplit(run, PrintDue(cfg, c, now), NodeCount(c, now), Elapsed(c, now),
      QueryDue(cfg, c, now), StopDue(cfg, NodeCount(c, now), Elapsed(c, now)));
  }



  /** A cursor update that either records a fresh print or keeps the old one, with no fewer queries. */
  lemma ConsistentAfterUpdate(c: Cursor, c': Cursor)
    requires Consistent(c)
    requires c'.startTime == c.startTime && c.queryCount <= c'.queryCount
    requires c.startTime <= c'.lastQueryTime
    requires c'.startTime <= c'.lastPrintTime
    requires || c'.lastNodeCount == Estimator.Estimate(Seconds(c'.lastPrintTime - c.startTime), c.queryCount)
             || (c'.lastNodeCount == c.lastNodeCount && c'.lastPrintTime == c.lastPrintTime)
    ensures Consistent(c')
  {
    Estimator.EstimateMonotoneInQueries(Seconds(c'.lastPrintTime - c.startTime), c.queryCount, c'.queryCount);
  }

  /** A tick taken from a consistent cursor leaves a consistent cursor. */
  lemma TickPreservesConsistent(cfg: Config, c: Cursor, now: nat, run: RunResult)
    requires Consistent(c) && ClockOk(c, now)
    ensures Consistent(Tick(cfg, c, now, run).cursor)
  {
    var c' := Tick(cfg, c, now, run).cursor;
    if PrintDue(cfg, c, now) {
      assert c'.lastNodeCount == NodeCount(c, now) && c'.lastPrintTime == now;
    } else {
      assert c'.lastNodeCount == c.lastNodeCount && c'.lastPrintTime == c.lastPrintTime;
    }
    ConsistentAfterUpdate(c, c');
  }

  /**
   * From a consistent cursor the estimate never falls below the last printed
   * count, so a change of count that triggers a print is always a rise.
   */
  lemma {:induction false} CountNeverFalls(cfg: Config, c: Cursor, now: nat)
    requires Consistent(c) && ClockOk(c, now)
    ensures c.lastNodeCount <= NodeCount(c, now)
    ensures PrintDue(cfg, c, now) <==>
      NodeCount(c, now) > c.lastNodeCount || Seconds(now - c.lastPrintTime) >= cfg.sleepPrint
  {
    SecondsMonotone(c.lastPrintTime - c.startTime, now - c.startTime);
    Estimator.EstimateMonotoneInElapsed(Seconds(c.lastPrintTime - c.startTime), Elapsed(c, now), c.queryCount);
  }

  /**
   * With a stop limit of 60 nodes, no time limit and no query dispatched yet,
   * a tick stops the loop exactly once 20 whole seconds have elapsed.
   */
  lemma StopAtSixtyNodes(cfg: Config, c: Cursor, now: nat, run: RunResult)
    requires cfg.stopNodes == 60 && cfg.stopTime <= 0 && c.queryCount == 0 && ClockOk(c, now)
    ensures Tick(cfg, c, now, run).halt <==> Elapsed(c, now) >= 20
  {
    Estimator.SixtyReachedAtTwenty(Elapsed(c, now));
  }

  /** One observation at the loop head: the running flag, the clock, and what `run()` reports. */
  datatype Observation = Observation(running: bool, now: nat, run: RunResult)

  /** Why the loop ended. `HorizonReached` means the finite schedule ran out first. */
  datatype Exit = StopConditionMet | Cancelled | HorizonReached

  /** Clock readings of the schedule never run backwards. */
  predicate Monotone(schedule: seq<Observation>) {
    forall i, j :: 0 <= i < j < |schedule| ==> schedule[i].now <= schedule[j].now
  }

  /** Clock readings of the schedule are no earlier than the start and never run backwards. */
  predicate MonotoneSchedule(start: nat, schedule: seq<Observation>) {
    && (forall i :: 0 <= i < |schedule| ==> start <= schedule[i].now)
    && Monotone(schedule)
  }

  /** Printed counts in a trace never decrease. */
  predicate PrintsNonDecreasing(trace: seq<Event>) {
    forall i, j :: 0 <= i < j < |trace| && trace[i].Printed? && trace[j].Printed? ==> trace[i].count <= trace[j].count
  }

  /** What the loop keeps true of the trace it has emitted so far and the cursor it holds. */
  predicate TraceInvariant(trace: seq<Event>, c: Cursor) {
    && Consistent(c)
    && c.queryCount == CountQueries(trace)
    && PrintsNonDecreasing(trace)
    && (forall j :: 0 <= j < |trace| && trace[j].Printed? ==> trace[j].count <= c.lastNodeCount)
  }

  /** Appending one tick's events keeps the trace invariant. */
  lemma TickKeepsTraceInvariant(cfg: Config, c: Cursor, now: nat, run: RunResult, trace: seq<Event>)
    requires ClockOk(c, now) && TraceInvariant(trace, c)
    ensures TraceInvariant(trace + Tick(cfg, c, now, run).events, Tick(cfg, c, now, run).cursor)
  {
    var s := Tick(cfg, c, now, run);
    var t := trace + s.events;
    TickSpec(cfg, c, now, run);
    CountNeverFalls(cfg, c, now);
    TickPreservesConsistent(cfg, c, now, run);
    CountQueriesAppend(trace, s.events);
    assert forall j :: 0 <= j < |s.events| && s.events[j].Printed? ==> s.events[j].count == s.cursor.lastNodeCount by {
      forall j | 0 <= j < |s.events| && s.events[j].Printed?
        ensures s.events[j].count == s.cursor.lastNodeCount
      {
        assert s.events[j] in s.events;
      }
    }
    assert forall j :: 0 <= j < |t| && t[j].Printed? ==> t[j].count <= s.cursor.lastNodeCount by {
      forall j | 0 <= j < |t| && t[j].Printed?
        ensures t[j].count <= s.cursor.lastNodeCount
      {
        if j >= |trace| {
          assert t[j] == s.events[j - |trace|];
        }
      }
    }
    forall i, j | 0 <= i < j < |t| && t[i].Printed? && t[j].Printed?
      ensures t[i].count <= t[j].count
    {
      if j >= |trace| {
        assert t[j] == s.events[j - |trace|];
      }
    }
  }

  /** What a run of the loop produces: its trace, final cursor, number of ticks and why it ended. */
  datatype LoopResult = LoopResult(trace: seq<Event>, cursor: Cursor, ticks: nat, exit: Exit)

  /** Every observation from position `i` on is a valid clock reading for cursor `c`. */
  predicate Feasible(c: Cursor, schedule: seq<Observation>, i: nat) {
    forall j :: i <= j < |schedule| ==> ClockOk(c, schedule[j].now)
  }

  /**
   * Reference semantics of the loop from position `i` of the schedule:
   * `Tick` folded over the observations, ending with no events at the first
   * one whose running flag is false, or at the first tick that decides to
   * stop, or when the schedule runs out.
   */
  function Run(cfg: Config, c: Cursor, schedule: seq<Observation>, i: nat): (r: LoopResult)
    requires i <= |schedule| && Monotone(schedule) && Feasible(c, schedule, i)
    decreases |schedule| - i
    ensures r.ticks <= |schedule| - i
    ensures r.ticks == 0 ==> r.trace == [] && r.cursor == c
  {
    if i == |schedule| then LoopResult([], c, 0, HorizonReached)
    else if !schedule[i].running then LoopResult([], c, 0, Cancelled)
    else
      var s := Tick(cfg, c, schedule[i].now, schedule[i].run);
      if s.halt then LoopResult(s.events, s.cursor, 1, StopConditionMet)
      else
        var rest := Run(cfg, s.cursor, schedule, i + 1);
        LoopResult(s.events + rest.trace, rest.cursor, rest.ticks + 1, rest.exit)
  }

  /** A run result preceded by `k` ticks that emitted `t`. */
  function After(t: seq<Event>, k: nat, r: LoopResult): LoopResult {
    LoopResult(t + r.trace, r.cursor, k + r.ticks, r.exit)
  }

  /**
   * One running tick of `Run`, seen from a loop that has already done `k`
   * ticks emitting `trace`: the whole run either ends with this tick or
   * continues from the tick's cursor at the next observation.
   */
  lemma RunAdvance(cfg: Config, c: Cursor, schedule: seq<Observation>, i: nat, whole: LoopResult, trace: seq<Event>, k: nat)
    requires i < |schedule| && Monotone(schedule) && Feasible(c, schedule, i) && schedule[i].running
    requires whole == After(trace, k, Run(cfg, c, schedule, i))
    ensures var s := Tick(cfg, c, schedule[i].now, schedule[i].run);
      && (s.halt ==> whole == LoopResult(trace + s.events, s.cursor, k + 1, StopConditionMet))
      && (!s.halt ==> Feasible(s.cursor, schedule, i + 1)
                      && whole == After(trace + s.events, k + 1, Run(cfg, s.cursor, schedule, i + 1)))
  {
    var s := Tick(cfg, c, schedule[i].now, schedule[i].run);
    if !s.halt {
      var r := Run(cfg, s.cursor, schedule, i + 1);
      assert trace + (s.events + r.trace) == (trace + s.events) + r.trace;
    }
  }

  /** The cursor a tick leaves is ready for every later observation of a monotone schedule. */
  lemma TickFeasible(cfg: Config, c: Cursor, schedule: seq<Observation>, i: nat)
    requires i < |schedule| && Monotone(schedule) && Feasible(c, schedule, i)
    ensures Feasible(Tick(cfg, c, schedule[i].now, schedule[i].run).cursor, schedule, i + 1)
  {
    var s := Tick(cfg, c, schedule[i].now, schedule[i].run);
    forall j | i + 1 <= j < |schedule|
      ensures ClockOk(s.cursor, schedule[j].now)
    {
      assert schedule[i].now <= schedule[j].now;
    }
  }

  lemma AppendAssoc(a: seq<Event>, b: seq<Event>, c: seq<Event>)
    ensures a + b + c == a + (b + c)
  {
  }

  lemma AppendEmpty(a: seq<Event>)
    ensures a + [] == a && [] + a == a
  {
  }

  /** Every run keeps the trace invariant of whatever trace it is appended to, and the start time. */
  lemma {:induction false} RunKeepsTraceInvariant(cfg: Config, c: Cursor, schedule: seq<Observation>, i: nat, trace: seq<Event>)
    requires i <= |schedule| && Monotone(schedule) && Feasible(c, schedule, i)
    requires TraceInvariant(trace, c)
    ensures Run(cfg, c, schedule, i).cursor.startTime == c.startTime
    ensures TraceInvariant(trace + Run(cfg, c, schedule, i).trace, Run(cfg, c, schedule, i).cursor)
    decreases |schedule| - i
  {
    if i == |schedule| || !schedule[i].running {
      AppendEmpty(trace);
    } else {
      var s := Tick(cfg, c, schedule[i].now, schedule[i].run);
      TickSpec(cfg, c, schedule[i].now, schedule[i].run);
      TickKeepsTraceInvariant(cfg, c, schedule[i].now, schedule[i].run, trace);
      if !s.halt {
        TickFeasible(cfg, c, schedule, i);
        RunKeepsTraceInvariant(cfg, s.cursor, schedule, i + 1, trace + s.events);
        AppendAssoc(trace, s.events, Run(cfg, s.cursor, schedule, i + 1).trace);
      }
    }
  }

  /** No `Stopped` event comes before the last position. */
  predicate StopOnlyAtEnd(t: seq<Event>) {
    forall k :: 0 <= k < |t| - 1 ==> !t[k].Stopped?
  }

  /** Events in step order hold a stop only as their last event. */
  lemma StepOrderStops(events: seq<Event>)
    requires InStepOrder(events)
    ensures StopOnlyAtEnd(events)
    ensures HasStop(events) ==> events != [] && events[|events| - 1].Stopped?
  {
    forall k | 0 <= k < |events| - 1
      ensures !events[k].Stopped?
    {
      assert Rank(events[k]) < Rank(events[k + 1]);
    }
    if HasStop(events) {
      var e :| e in events && e.Stopped?;
      var k :| 0 <= k < |events| && events[k] == e;
      assert k == |events| - 1;
    }
  }

  /** Events appended after a stretch with no stop decide where the stops are. */
  lemma AppendAfterNoStop(a: seq<Event>, b: seq<Event>)
    requires !HasStop(a)
    ensures HasStop(a + b) <==> HasStop(b)
    ensures b != [] ==> (a + b)[|a + b| - 1] == b[|b| - 1]
    ensures StopOnlyAtEnd(b) ==> StopOnlyAtEnd(a + b)
  {
    var t := a + b;
    if HasStop(t) {
      var e :| e in t && e.Stopped?;
      assert e !in a;
    }
    if HasStop(b) {
      var e :| e in b && e.Stopped?;
      assert e in t;
    }
    if StopOnlyAtEnd(b) {
      forall k | 0 <= k < |t| - 1
        ensures !t[k].Stopped?
      {
        if k < |a| {
          assert t[k] in a;
        } else {
          assert t[k] == b[k - |a|];
        }
      }
    }
  }

  /**
   * A run stops exactly when its trace holds a `Stopped` event, which is then
   * its last; with both stop thresholds off it never stops.
   */
  lemma {:induction false} RunStops(cfg: Config, c: Cursor, schedule: seq<Observation>, i: nat)
    requires i <= |schedule| && Monotone(schedule) && Feasible(c, schedule, i)
    ensures HasStop(Run(cfg, c, schedule, i).trace) <==> Run(cfg, c, schedule, i).exit == StopConditionMet
    ensures Run(cfg, c, schedule, i).exit == StopConditionMet ==>
      |Run(cfg, c, schedule, i).trace| > 0 && Run(cfg, c, schedule, i).trace[|Run(cfg, c, schedule, i).trace| - 1].Stopped?
    ensures StopOnlyAtEnd(Run(cfg, c, schedule, i).trace)
    ensures cfg.stopNodes <= 0 && cfg.stopTime <= 0 ==> Run(cfg, c, schedule, i).exit != StopConditionMet
    decreases |schedule| - i
  {
    if i < |schedule| && schedule[i].running {
      var s := Tick(cfg, c, schedule[i].now, schedule[i].run);
      TickSpec(cfg, c, schedule[i].now, schedule[i].run);
      StepOrderStops(s.events);
      if !s.halt {
        TickFeasible(cfg, c, schedule, i);
        RunStops(cfg, s.cursor, schedule, i + 1);
        AppendAfterNoStop(s.events, Run(cfg, s.cursor, schedule, i + 1).trace);
      }
    }
  }

  /**
   * The ticks of a run are taken at running observations, before the stop
   * time when one is set, and the exit says where the schedule stood.
   */
  lemma {:induction false} RunShape(cfg: Config, c: Cursor, schedule: seq<Observation>, i: nat)
    requires i <= |schedule| && Monotone(schedule) && Feasible(c, schedule, i)
    ensures var r := Run(cfg, c, schedule, i);
      && (forall j :: i <= j < i + r.ticks ==> schedule[j].running)
      && (r.exit == Cancelled ==> i + r.ticks < |schedule| && !schedule[i + r.ticks].running)
      && (r.exit == HorizonReached ==> i + r.ticks == |schedule|)
      && (r.exit == StopConditionMet ==> r.ticks > 0)
      && (cfg.stopTime > 0 ==> forall j :: i <= j < i + r.ticks - 1 ==> Seconds(schedule[j].now - c.startTime) < cfg.stopTime)
    decreases |schedule| - i
  {
    var r := Run(cfg, c, schedule, i);
    if i < |schedule| && schedule[i].running {
      var s := Tick(cfg, c, schedule[i].now, schedule[i].run);
      if s.halt {
        assert r == LoopResult(s.events, s.cursor, 1, StopConditionMet);
      } else {
        TickFeasible(cfg, c, schedule, i);
        RunShape(cfg, s.cursor, schedule, i + 1);
        var rest := Run(cfg, s.cursor, schedule, i + 1);
        assert r == LoopResult(s.events + rest.trace, rest.cursor, rest.ticks + 1, rest.exit);
        assert i + r.ticks == (i + 1) + rest.ticks;
        assert Elapsed(c, schedule[i].now) == Seconds(schedule[i].now - c.startTime);
      }
    } else {
      assert r.ticks == 0 && i + r.ticks == i;
    }
  }


  /**
   * One pass of the loop body after `running` was seen true: take a tick and
   * append its events to the trace emitted so far.
   */
  method TakeTick(cfg: Config, cursor: Cursor, trace: seq<Event>, now: nat, run: RunResult)
    returns (next: Cursor, extended: seq<Event>, halt: bool)
    requires ClockOk(cursor, now) && TraceInvariant(trace, cursor) && !HasStop(trace)
    ensures next.startTime == cursor.startTime && TraceInvariant(extended, next)
    ensures next.lastPrintTime <= now && next.lastQueryTime <= now
    ensures |trace| <= |extended| && extended[..|trace|] == trace
    ensures halt <==> HasStop(extended)
    ensures halt ==> extended[|extended| - 1].Stopped?
    ensures StopOnlyAtEnd(extended)
    ensures halt <==> StopDue(cfg, NodeCount(cursor, now), Elapsed(cursor, now))
    ensures next == Tick(cfg, cursor, now, run).cursor
    ensures extended == trace + Tick(cfg, cursor, now, run).events
    ensures halt == Tick(cfg, cursor, now, run).halt
  {
    var step := Tick(cfg, cursor, now, run);
    TickSpec(cfg, cursor, now, run);
    TickKeepsTraceInvariant(cfg, cursor, now, run, trace);
    EmitInStepOrder(run, PrintDue(cfg, cursor, now), NodeCount(cursor, now), Elapsed(cursor, now),
      QueryDue(cfg, cursor, now), StopDue(cfg, NodeCount(cursor, now), Elapsed(cursor, now)));
    StepOrderStops(step.events);
    AppendAfterNoStop(trace, step.events);
    next, extended, halt := step.cursor, trace + step.events, step.halt;
    assert extended[..|trace|] == trace;
  }

  /**
   * What the loop promises about one run from `start`: it ticked only on
   * running observations; it left through cancellation exactly when it found
   * the flag down, through the end of the schedule exactly when it ran out,
   * and through the stop condition exactly when its last event is the stop
   * line; the trace keeps the cursor's invariant; and with both stop
   * thresholds off it never stops by itself.
   */
  predicate LoopOutcome(cfg: Config, start: nat, schedule: seq<Observation>, trace: seq<Event>, cursor: Cursor, ticks: nat, exit: Exit) {
    && ticks <= |schedule|
    && (ticks == 0 ==> trace == [])
    && cursor.startTime == start && Consistent(cursor)
    && (forall i :: 0 <= i < ticks ==> schedule[i].running)
    && (exit == Cancelled <==> ticks < |schedule| && !schedule[ticks].running && !HasStop(trace))
    && (exit == HorizonReached <==> ticks == |schedule| && !HasStop(trace))
    && (exit == StopConditionMet <==> |trace| > 0 && trace[|trace| - 1].Stopped?)
    && StopOnlyAtEnd(trace)
    && cursor.queryCount == CountQueries(trace)
    && PrintsNonDecreasing(trace)
    && (forall i :: 0 <= i < |trace| && trace[i].Printed? ==> trace[i].count <= cursor.lastNodeCount)
    && (cfg.stopNodes <= 0 && cfg.stopTime <= 0 ==> exit != StopConditionMet)
    && (cfg.stopTime > 0 ==> forall i :: 0 <= i < ticks - 1 ==> start <= schedule[i].now && Seconds(schedule[i].now - start) < cfg.stopTime)
  }

  /** The reference run from the initial cursor keeps the trace invariant. */
  lemma RunFromStartKeeps(cfg: Config, start: nat, schedule: seq<Observation>, trace: seq<Event>, cursor: Cursor, ticks: nat, exit: Exit)
    requires MonotoneSchedule(start, schedule)
    requires Feasible(Init(start), schedule, 0) && LoopResult(trace, cursor, ticks, exit) == Run(cfg, Init(start), schedule, 0)
    ensures cursor.startTime == start && Consistent(cursor)
    ensures cursor.queryCount == CountQueries(trace)
    ensures PrintsNonDecreasing(trace)
    ensures forall i :: 0 <= i < |trace| && trace[i].Printed? ==> trace[i].count <= cursor.lastNodeCount
  {
    RunKeepsTraceInvariant(cfg, Init(start), schedule, 0, []);
    AppendEmpty(trace);
  }

  /** How the reference run from the initial cursor ends. */
  lemma RunFromStartExit(cfg: Config, start: nat, schedule: seq<Observation>, trace: seq<Event>, cursor: Cursor, ticks: nat, exit: Exit)
    requires MonotoneSchedule(start, schedule)
    requires Feasible(Init(start), schedule, 0) && LoopResult(trace, cursor, ticks, exit) == Run(cfg, Init(start), schedule, 0)
    ensures ticks <= |schedule|
    ensures ticks == 0 ==> trace == []
    ensures forall i :: 0 <= i < ticks ==> schedule[i].running
    ensures exit == Cancelled <==> ticks < |schedule| && !schedule[ticks].running && !HasStop(trace)
    ensures exit == HorizonReached <==> ticks == |schedule| && !HasStop(trace)
    ensures exit == StopConditionMet <==> |trace| > 0 && trace[|trace| - 1].Stopped?
    ensures StopOnlyAtEnd(trace)
    ensures cfg.stopNodes <= 0 && cfg.stopTime <= 0 ==> exit != StopConditionMet
    ensures cfg.stopTime > 0 ==> forall i :: 0 <= i < ticks - 1 ==> Seconds(schedule[i].now - start) < cfg.stopTime
  {
    RunStops(cfg, Init(start), schedule, 0);
    RunShape(cfg, Init(start), schedule, 0);
  }

  /** The reference run from the initial cursor has the loop's outcome. */
  lemma RunFromStart(cfg: Config, start: nat, schedule: seq<Observation>, trace: seq<Event>, cursor: Cursor, ticks: nat, exit: Exit)
    requires MonotoneSchedule(start, schedule)
    requires Feasible(Init(start), schedule, 0) && LoopResult(trace, cursor, ticks, exit) == Run(cfg, Init(start), schedule, 0)
    ensures LoopOutcome(cfg, start, schedule, trace, cursor, ticks, exit)
  {
    RunFromStartKeeps(cfg, start, schedule, trace, cursor, ticks, exit);
    RunFromStartExit(cfg, start, schedule, trace, cursor, ticks, exit);
  }



  /**
   * The loop, run against a finite schedule of observations: it checks the
   * running flag at the head of every iteration, takes one tick otherwise,
   * and breaks as soon as a tick's stop decision is taken.
   */
  method MainLoop(cfg: Config, start: nat, schedule: seq<Observation>)
    returns (trace: seq<Event>, cursor: Cursor, ticks: nat, exit: Exit)
    requires MonotoneSchedule(start, schedule)
    ensures Feasible(Init(start), schedule, 0)
    ensures LoopResult(trace, cursor, ticks, exit) == Run(cfg, Init(start), schedule, 0)
    ensures LoopOutcome(cfg, start, schedule, trace, cursor, ticks, exit)
  {
    trace := [];
    cursor := Init(start);
    exit := HorizonReached;
    var i := 0;
    while i < |schedule|
      invariant 0 <= i <= |schedule|
      invariant Feasible(cursor, schedule, i)
      invariant Run(cfg, Init(start), schedule, 0) == After(trace, i, Run(cfg, cursor, schedule, i))
      invariant TraceInvariant(trace, cursor) && !HasStop(trace)
    {
      var obs := schedule[i];
      if !obs.running {
        exit := Cancelled;
        AppendEmpty(trace);
        break;
      }
      RunAdvance(cfg, cursor, schedule, i, Run(cfg, Init(start), schedule, 0), trace, i);
      var halt;
      cursor, trace, halt := TakeTick(cfg, cursor, trace, obs.now, obs.run);
      i := i + 1;
      if halt {
        exit := StopConditionMet;
        break;
      }
    }
    ticks := i;
    RunFromStart(cfg, start, schedule, trace, cursor, ticks, exit);
  }
}

=== FILE: estimator.dfy ===
/**
 * The client's network-size heuristic: a pure function of whole elapsed
 * seconds and the number of query rounds dispatched so far. It is a policy
 * hook, not a measurement; it drives both the status lines and the
 * stop-at-node-count condition of the control loop.
 */
module Estimator {

  /** Ceiling on every estimate. */
  const MaxNodes: nat := 150

  /** Ceiling on the part of the estimate earned by dispatched queries. */
  const MaxQueryBonus: nat := 40

  function Min(a: int, b: int): int {
    if a <= b then a else b
  }

  /**
   * Time-driven part of the estimate: nothing for the first two seconds,
   * then a ramp of slope 5, 3 and 2 with breakpoints at 2, 5 and 20 seconds.
   */
  function BaseCount(elapsed: nat): (b: nat)
    ensures b == 0 <==> elapsed < 2
    ensures 2 <= elapsed < 5 ==> 4 <= b <= 14
    ensures 5 <= elapsed < 20 ==> 15 <= b <= 57
    ensures 20 <= elapsed ==> 60 <= b
  {
    if elapsed < 2 then 0
    else if elapsed < 5 then 4 + (elapsed - 2) * 5
    else if elapsed < 20 then 15 + (elapsed - 5) * 3
    else 60 + (elapsed - 20) * 2
  }

  /** Two nodes per dispatched query round, capped. */
  function QueryBonus(queries: nat): (b: nat)
    ensures b <= MaxQueryBonus
    ensures b <= 2 * queries
    ensures queries <= 20 ==> b == 2 * queries
  {
    Min(2 * queries, MaxQueryBonus)
  }

  /** The estimate: ramp plus query bonus, clamped to `MaxNodes`. */
  function Estimate(elapsed: nat, queries: nat): (n: nat)
    ensures n <= MaxNodes
    ensures QueryBonus(queries) <= n
    ensures n == MaxNodes || n == BaseCount(elapsed) + QueryBonus(queries)
    ensures n <= BaseCount(elapsed) + QueryBonus(queries)
  {
    Min(BaseCount(elapsed) + QueryBonus(queries), MaxNodes)
  }

  /**
   * How much the ramp grows when the elapsed time reaches second `s`:
   * the jump at 2 s, the slope of each segment and the small steps at 5 s
   * and 20 s where one segment hands over to the next.
   */
  function Increment(s: nat): nat
    requires s >= 1
  {
    if s == 1 then 0
    else if s == 2 then 4
    else if s < 5 then 5
    else if s == 5 then 1
    else if s <= 20 then 3
    else 2
  }

  /** Independent definition of the ramp as the running sum of its increments. */
  function Ramp(elapsed: nat): nat {
    if elapsed == 0 then 0 else Ramp(elapsed - 1) + Increment(elapsed)
  }

  /** The closed-form ramp and the accumulated increments agree everywhere. */
  lemma {:induction false} RampMatchesBase(elapsed: nat)
    ensures Ramp(elapsed) == BaseCount(elapsed)
  {
    if elapsed > 0 {
      RampMatchesBase(elapsed - 1);
    }
  }

  /** The ramp never decreases as time passes. */
  lemma {:induction false} BaseMonotone(e1: nat, e2: nat)
    requires e1 <= e2
    ensures BaseCount(e1) <= BaseCount(e2)
  {
    if e1 < e2 {
      BaseMonotone(e1, e2 - 1);
      RampMatchesBase(e2);
      RampMatchesBase(e2 - 1);
    }
  }

  /** At a fixed query count the estimate is non-decreasing in elapsed time. */
  lemma EstimateMonotoneInElapsed(e1: nat, e2: nat, queries: nat)
    requires e1 <= e2
    ensures Estimate(e1, queries) <= Estimate(e2, queries)
  {
    BaseMonotone(e1, e2);
  }

  /** At a fixed elapsed time the estimate is non-decreasing in the query count. */
  lemma EstimateMonotoneInQueries(elapsed: nat, q1: nat, q2: nat)
    requires q1 <= q2
    ensures Estimate(elapsed, q1) <= Estimate(elapsed, q2)
  {
  }

  /** Monotone in both arguments together. */
  lemma EstimateMonotone(e1: nat, e2: nat, q1: nat, q2: nat)
    requires e1 <= e2 && q1 <= q2
    ensures Estimate(e1, q1) <= Estimate(e2, q2)
  {
    EstimateMonotoneInElapsed(e1, e2, q1);
    EstimateMonotoneInQueries(e2, q1, q2);
  }

  /** Values at and around each breakpoint, with no queries dispatched. */
  lemma Breakpoints()
    ensures forall e: nat :: e < 2 ==> Estimate(e, 0) == 0
    ensures Estimate(2, 0) == 4
    ensures Estimate(4, 0) == 14 && Estimate(5, 0) == 15
    ensures Estimate(19, 0) == 57 && Estimate(20, 0) == 60
  {
  }

  /** The query bonus saturates after twenty query rounds. */
  lemma QueryBonusSaturates(queries: nat)
    ensures QueryBonus(queries) == MaxQueryBonus <==> queries >= 20
  {
  }

  /** From 65 seconds on the ramp alone reaches the ceiling. */
  lemma EstimateSaturates(elapsed: nat, queries: nat)
    ensures elapsed >= 65 ==> Estimate(elapsed, queries) == MaxNodes
    ensures Estimate(elapsed, 0) == MaxNodes <==> elapsed >= 65
  {
  }

  /**
   * With no query dispatched, an estimate of at least 60 is reached exactly
   * from second 20 on; this is when a stop-at-60-nodes run ends.
   */
  lemma SixtyReachedAtTwenty(elapsed: nat)
    ensures Estimate(elapsed, 0) >= 60 <==> elapsed >= 20
  {
  }
}

=== FILE: startup.dfy ===
/**
 * Process start-up: the command line is scanned left to right, the infohash
 * is checked, the client bootstraps, and the process exit code follows.
 * Arguments are byte strings, as `argv` hands them over, so every length
 * below counts bytes. Conversion of numeric option values to integers is not
 * modelled: those options keep the bytes that would be converted.
 */
module Startup {
  import Bootstrap

  /** One byte of a command-line argument. */
  type Byte = b: int | 0 <= b < 256

  /**
   * A command-line argument. Literal arguments below are written as their
   * ASCII codes, with the text they spell in the doc comment.
   */
  type Arg = seq<Byte>

  /** Command-line settings; numeric options hold their (unconverted) bytes. */
  datatype Options = Options(
    address: Arg,
    port: Arg,
    btih: Arg,
    sleepPrint: Arg,
    sleepQuery: Arg,
    stopNodes: Arg,
    stopTime: Arg,
    debug: bool)

  /** The infohash used when `--btih` is not given: `a9ae5333b345d9c66ed09e2f72eef639dec5ad1d`. */
  const DefaultInfohash: Arg := [
    97, 57, 97, 101, 53, 51, 51, 51, 98, 51, 52, 53, 100, 57, 99, 54, 54, 101, 100, 48,
    57, 101, 50, 102, 55, 50, 101, 101, 102, 54, 51, 57, 100, 101, 99, 53, 97, 100, 49, 100]

  /**
   * The settings used for every option the command line does not give:
   * address `0.0.0.0`, port `6881`, the default infohash, status every `1`
   * second, queries every `30` seconds, and both stop thresholds `0`.
   */
  const Defaults: Options := Options(
    [48, 46, 48, 46, 48, 46, 48], [54, 56, 56, 49], DefaultInfohash, [49], [51, 48], [48], [48], false)

  /** Length in bytes of a hexadecimal infohash (160 bits). */
  const InfohashLength: nat := 40

  /** `--help` */
  const HelpFlag: Arg := [45, 45, 104, 101, 108, 112]
  /** `--debug` */
  const DebugFlag: Arg := [45, 45, 100, 101, 98, 117, 103]
  /** `--addr` */
  const AddrFlag: Arg := [45, 45, 97, 100, 100, 114]
  /** `--port` */
  const PortFlag: Arg := [45, 45, 112, 111, 114, 116]
  /** `--btih` */
  const BtihFlag: Arg := [45, 45, 98, 116, 105, 104]
  /** `--sleep-print` */
  const SleepPrintFlag: Arg := [45, 45, 115, 108, 101, 101, 112, 45, 112, 114, 105, 110, 116]
  /** `--sleep-query` */
  const SleepQueryFlag: Arg := [45, 45, 115, 108, 101, 101, 112, 45, 113, 117, 101, 114, 121]
  /** `--stop-nodes` */
  const StopNodesFlag: Arg := [45, 45, 115, 116, 111, 112, 45, 110, 111, 100, 101, 115]
  /** `--stop-time` */
  const StopTimeFlag: Arg := [45, 45, 115, 116, 111, 112, 45, 116, 105, 109, 101]

  /** Result of scanning the command line. */
  datatype Parse = Help | UnknownOption(arg: Arg) | Parsed(opts: Options)

  /** Options that consume the next argument as their value. */
  predicate TakesValue(flag: Arg) {
    || flag == AddrFlag || flag == PortFlag || flag == BtihFlag
    || flag == SleepPrintFlag || flag == SleepQueryFlag
    || flag == StopNodesFlag || flag == StopTimeFlag
  }

  /** The setting a valued option writes. */
  function Field(o: Options, flag: Arg): Arg
    requires TakesValue(flag)
  {
    if flag == AddrFlag then o.address
    else if flag == PortFlag then o.port
    else if flag == BtihFlag then o.btih
    else if flag == SleepPrintFlag then o.sleepPrint
    else if flag == SleepQueryFlag then o.sleepQuery
    else if flag == StopNodesFlag then o.stopNodes
    else o.stopTime
  }

  /**
   * Store the value of one valued option: the option's own setting takes the
   * value (a later occurrence overrides an earlier one) and every other
   * setting, the debug switch included, is left as it was.
   */
  function SetOption(o: Options, flag: Arg, value: Arg): (r: Options)
    requires TakesValue(flag)
    ensures Field(r, flag) == value
    ensures forall g :: TakesValue(g) && g != flag ==> Field(r, g) == Field(o, g)
    ensures r.debug == o.debug
  {
    if flag == AddrFlag then o.(address := value)
    else if flag == PortFlag then o.(port := value)
    else if flag == BtihFlag then o.(btih := value)
    else if flag == SleepPrintFlag then o.(sleepPrint := value)
    else if flag == SleepQueryFlag then o.(sleepQuery := value)
    else if flag == StopNodesFlag then o.(stopNodes := value)
    else o.(stopTime := value)
  }

  /**
   * Scan the remaining arguments. `--help` ends the scan; a valued option
   * takes the next argument whatever it is; an argument that is none of these,
   * or a valued option with nothing after it, is an unknown option.
   */
  function ParseFrom(args: seq<Arg>, o: Options): (r: Parse)
    decreases |args|
    ensures r.Help? ==> HelpFlag in args
    ensures r.UnknownOption? ==>
      && r.arg in args
      && r.arg != HelpFlag && r.arg != DebugFlag
      && (TakesValue(r.arg) ==> r.arg == args[|args| - 1])
    ensures r.Parsed? && r.opts.debug ==> o.debug || DebugFlag in args
    ensures r.Parsed? && r.opts.btih != o.btih ==> BtihFlag in args
  {
    if args == [] then Parsed(o)
    else if args[0] == HelpFlag then Help
    else if TakesValue(args[0]) && 1 < |args| then
      var r := ParseFrom(args[2..], SetOption(o, args[0], args[1]));
      assert forall x :: x in args[2..] ==> x in args by {
        assert args == args[..2] + args[2..];
      }
      r
    else if args[0] == DebugFlag then ParseFrom(args[1..], o.(debug := true))
    else UnknownOption(args[0])
  }

  /** The command line (without the program name), scanned from the defaults. */
  function ParseArgs(args: seq<Arg>): Parse {
    ParseFrom(args, Defaults)
  }

  /** What `main` does before creating the client: exit with a code, or go on with the settings. */
  datatype Launch = Exit(code: int) | Go(opts: Options)

  /**
   * Help exits 0; an unknown option or an infohash whose length is not 40 bytes
   * exits 1. Only the length is checked: the bytes are not required to be
   * hexadecimal digits. With no arguments the defaults pass the check.
   */
  function CheckStartup(args: seq<Arg>): (l: Launch)
    ensures l.Go? ==> ParseArgs(args) == Parsed(l.opts) && |l.opts.btih| == InfohashLength
    ensures l == Exit(0) <==> ParseArgs(args).Help?
    ensures l == Exit(1) <==> ParseArgs(args).UnknownOption? || (ParseArgs(args).Parsed? && |ParseArgs(args).opts.btih| != InfohashLength)
    ensures args == [] ==> l == Go(Defaults)
  {
    match ParseArgs(args)
    case Help => Exit(0)
    case UnknownOption(_) => Exit(1)
    case Parsed(o) => if |o.btih| != InfohashLength then Exit(1) else Go(o)
  }

  /**
   * Exit code of the whole process: start-up checks, then bootstrap over the
   * default nodes; a bootstrap in which every node fails makes `start` throw,
   * which `main` turns into exit code 1. A started client exits 0.
   */
  function ProcessExit(args: seq<Arg>, connect: Bootstrap.Endpoint -> Bootstrap.Attempt): (code: int)
    ensures code == 0 || code == 1
    ensures code == 0 <==>
      || ParseArgs(args).Help?
      || (CheckStartup(args).Go? && exists k :: 0 <= k < |Bootstrap.DefaultNodes| && connect(Bootstrap.DefaultNodes[k]).Constructed?)
  {
    match CheckStartup(args)
    case Exit(c) => c
    case Go(_) =>
      var cands := Bootstrap.DefaultCandidates(connect);
      var r := Bootstrap.Initialize(cands);
      assert (exists k :: 0 <= k < |cands| && Bootstrap.Succeeds(cands[k])) <==>
        (exists k :: 0 <= k < |Bootstrap.DefaultNodes| && connect(Bootstrap.DefaultNodes[k]).Constructed?) by {
        forall k | 0 <= k < |cands|
          ensures Bootstrap.Succeeds(cands[k]) <==> connect(Bootstrap.DefaultNodes[k]).Constructed?
        {
        }
      }
      if r.session.Some? then 0 else 1
  }

  /** Command line that sets every option explicitly. */
  function Render(o: Options): seq<Arg> {
    [AddrFlag, o.address, PortFlag, o.port, BtihFlag, o.btih,
     SleepPrintFlag, o.sleepPrint, SleepQueryFlag, o.sleepQuery,
     StopNodesFlag, o.stopNodes, StopTimeFlag, o.stopTime]
    + (if o.debug then [DebugFlag] else [])
  }

  /** A valued option followed by its value is read and the scan goes on after both. */
  lemma ReadBack(flag: Arg, value: Arg, rest: seq<Arg>, o: Options)
    requires TakesValue(flag)
    ensures ParseFrom([flag, value] + rest, o) == ParseFrom(rest, SetOption(o, flag, value))
  {
    assert ([flag, value] + rest)[2..] == rest;
  }

  /** Scanning a rendered command line gives back exactly the rendered settings. */
  lemma RenderParseRoundTrip(o: Options)
    ensures ParseArgs(Render(o)) == Parsed(o)
  {
    var flag := if o.debug then [DebugFlag] else [];
    var t7 := [StopTimeFlag, o.stopTime] + flag;
    var t6 := [StopNodesFlag, o.stopNodes] + t7;
    var t5 := [SleepQueryFlag, o.sleepQuery] + t6;
    var t4 := [SleepPrintFlag, o.sleepPrint] + t5;
    var t3 := [BtihFlag, o.btih] + t4;
    var t2 := [PortFlag, o.port] + t3;
    var t1 := [AddrFlag, o.address] + t2;
    assert Render(o) == t1;
    var o1 := Defaults.(address := o.address);
    var o2 := o1.(port := o.port);
    var o3 := o2.(btih := o.btih);
    var o4 := o3.(sleepPrint := o.sleepPrint);
    var o5 := o4.(sleepQuery := o.sleepQuery);
    var o6 := o5.(stopNodes := o.stopNodes);
    var o7 := o6.(stopTime := o.stopTime);
    ReadBack(AddrFlag, o.address, t2, Defaults);
    ReadBack(PortFlag, o.port, t3, o1);
    ReadBack(BtihFlag, o.btih, t4, o2);
    ReadBack(SleepPrintFlag, o.sleepPrint, t5, o3);
    ReadBack(SleepQueryFlag, o.sleepQuery, t6, o4);
    ReadBack(StopNodesFlag, o.stopNodes, t7, o5);
    ReadBack(StopTimeFlag, o.stopTime, flag, o6);
    if o.debug {
      assert flag[1..] == [];
    }
  }

  /**
   * Appending a valued option with no value to a command line that scans
   * cleanly turns the result into an unknown-option error for that option.
   */
  lemma {:induction false} TrailingValuedOptionIsUnknown(args: seq<Arg>, o: Options, flag: Arg)
    requires TakesValue(flag)
    requires ParseFrom(args, o).Parsed?
    decreases |args|
    ensures ParseFrom(args + [flag], o) == UnknownOption(flag)
  {
    var ext := args + [flag];
    if args == [] {
      assert ext == [flag];
    } else {
      assert ext[0] == args[0];
      if TakesValue(args[0]) && 1 < |args| {
        assert ext[1] == args[1] && ext[2..] == args[2..] + [flag];
        TrailingValuedOptionIsUnknown(args[2..], SetOption(o, args[0], args[1]), flag);
      } else {
        assert ext[1..] == args[1..] + [flag];
        TrailingValuedOptionIsUnknown(args[1..], o.(debug := true), flag);
      }
    }
  }

  /**
   * A `--help` that the scan reaches ends it with help, whatever follows:
   * once a prefix scans cleanly, appending `--help` and anything after it
   * gives `Help`.
   */
  lemma {:induction false} HelpReached(args: seq<Arg>, o: Options, rest: seq<Arg>)
    requires ParseFrom(args, o).Parsed?
    decreases |args|
    ensures ParseFrom(args + [HelpFlag] + rest, o) == Help
  {
    var ext := args + [HelpFlag] + rest;
    if args == [] {
      assert ext[0] == HelpFlag;
    } else {
      assert ext[0] == args[0];
      if TakesValue(args[0]) && 1 < |args| {
        assert ext[1] == args[1] && ext[2..] == args[2..] + [HelpFlag] + rest;
        HelpReached(args[2..], SetOption(o, args[0], args[1]), rest);
      } else {
        assert ext[1..] == args[1..] + [HelpFlag] + rest;
        HelpReached(args[1..], o.(debug := true), rest);
      }
    }
  }

  /**
   * An argument that is neither `--help`, `--debug` nor a valued option, once
   * the scan reaches it, is reported as unknown, whatever follows it.
   */
  lemma {:induction false} UnknownReached(args: seq<Arg>, o: Options, x: Arg, rest: seq<Arg>)
    requires ParseFrom(args, o).Parsed?
    requires x != HelpFlag && x != DebugFlag && !TakesValue(x)
    decreases |args|
    ensures ParseFrom(args + [x] + rest, o) == UnknownOption(x)
  {
    var ext := args + [x] + rest;
    if args == [] {
      assert ext[0] == x;
    } else {
      assert ext[0] == args[0];
      if TakesValue(args[0]) && 1 < |args| {
        assert ext[1] == args[1] && ext[2..] == args[2..] + [x] + rest;
        UnknownReached(args[2..], SetOption(o, args[0], args[1]), x, rest);
      } else {
        assert ext[1..] == args[1..] + [x] + rest;
        UnknownReached(args[1..], o.(debug := true), x, rest);
      }
    }
  }

  /**
   * Any 40-byte infohash passes the start-up check, hexadecimal or not;
   * any other length fails it with exit code 1.
   */
  lemma InfohashLengthOnly(h: Arg)
    ensures |h| == InfohashLength ==> CheckStartup([BtihFlag, h]) == Go(Defaults.(btih := h))
    ensures |h| != InfohashLength ==> CheckStartup([BtihFlag, h]) == Exit(1)
  {
    ReadBack(BtihFlag, h, [], Defaults);
    assert [BtihFlag, h] + [] == [BtihFlag, h];
  }
}

=== FILE: wrappers.dfy ===
/** The optional-value type shared by the other modules. */
module Wrappers {

  /** A value that may be absent: a session slot never filled, an unchosen node. */
  datatype Option<+T> = None | Some(value: T)
}
